=== FILE: README.md ===
# Viewport, cursor and line-rendering engine of a terminal text viewer

This project models the core of a small terminal text editor written in Rust. The core has three parts.

- **Lines** (`lines.dfy`): a line of text is a sequence of grapheme fragments. Each fragment has a display width (`Half`, one cell, or `Full`, two cells) and an optional replacement glyph. The renderer `get_graphems` draws the column range `[start, end)` of a line. It walks the fragments with a running column. It skips fragments that end at or before `start`. It stops at the first fragment that starts at or after `end`. A fragment cut by either edge is drawn as one `⋯`, and any other fragment is drawn as its replacement or its text.
- **Views** (`views.dfy`): the view is the state `(size, buffer, needRedraw, location, offset)`.
  - It moves the cursor location with the program's saturating and clamping rules.
  - It scrolls each axis independently so the cursor stays on screen.
  - It maps a location to a screen column through the line's width prefix sum.
  - It decides per screen row whether to show a buffer line, the centred banner or `~`.
  - It tracks whether the screen must be redrawn.
- **Commands** (`commands.dfy`): a total decoder from terminal events to `Result<Command, string>`.

`buffers.dfy` holds the document as a sequence of lines. `geometry.dfy` holds `Size` and `Position`. `wrappers.dfy` holds `Option`/`Result`.

Rendering is a pure function. It returns the view afterwards and, when anything was drawn, the text of every screen row. `Render` returns the rows' text instead of printing them; the terminal size and the program's name and version are parameters. The following are proved:

- The renderer's loop equals a fragment-by-fragment reference definition.
- The pieces it draws fill exactly the visible cells of the line, so a drawn row never exceeds the screen width.
- Every movement keeps a valid location valid.
- After any movement on a non-empty viewport the caret is on screen.
- Only rendering clears the redraw mark.
- A second render with nothing in between draws nothing.
- Starting at grapheme 0 of a visible line of half-width graphemes, with the window at column 0, moving right `k` times (at most the line's length) scrolls the window to column `max(0, k - width + 1)` and leaves the row offset alone.

Behaviour of the program that the model keeps:

- Page Up and Page Down move `height - 1` lines relative to the cursor (`src/editor/view.rs:160-161`). They do not jump to the top or bottom of the window.
- `Line::from` only distinguishes zero-width clusters, which get the replacement `'.'`. Widths 0 and 1 are half width and 2 or more are full width (`src/editor/line.rs:38-46`). There is no tab, whitespace or control-character substitution in the code.
- The decoder's error strings are plain literals: `"Unsupported key: {code:?}"` and `"Unsupported event: {event:?}"` (`src/editor/command.rs:40`, `48`). The braces are not interpolated, because the strings are never passed through `format!`. The model keeps these exact texts.
- Inserting a character moves the cursor right with `move_right` and never calls `scroll_screen` (`src/editor/view.rs:90-94`). So after an insertion the caret can lie outside the window until the next movement. The model keeps this behaviour. The caret-visibility guarantee is stated for movements only.

The view calls `Line::grapheme_len`, `Line::width_until` and `Buffer::total_lines`, and handles `Command::Insert`. `line.rs`, `buffer.rs` and `command.rs` do not define these. The model gives them these meanings:

- `Line::grapheme_len` is the fragment count (`Lines.Len`).
- `Line::width_until(i)` is the sum of the widths of the first `min(i, len)` fragments, accumulated with the `Add` rule (`Lines.WidthUntil`).
- The buffer is a sequence of `Line` values, and `total_lines` is its length. `buffer.rs` stores strings, but the view reads its entries as `Line`s.
- `Command` has an `Insert` variant, because the view dispatches on it. The decoder never produces it.
- `Size` and `Position` are `{width, height}` and `{col, row}` naturals, as the view uses them.

## Model

| member | source | states |
|---|---|---|
| Lines.Len | src/editor/line.rs:82-84 | the grapheme count of a line is its number of fragments |
| Buffers.TotalLines | src/editor/view.rs:217 | the line count of the buffer is the number of its lines |
| Buffers.IsEmpty | src/editor/buffer.rs:25-27 | the buffer is empty exactly when it has no lines, that is when there is no line 0 |
| Geometry.Subtract | src/editor/view.rs:145-147 | subtracting the offset from a position gives, on each axis, the difference when the offset does not exceed the position and 0 otherwise |
| Views.Initial | src/editor/view.rs:29-35 | a new view has the given size, an empty buffer, cursor and offset at the origin, a valid location, and is marked for redraw |
| Lines.Add | src/editor/line.rs:12-21 | a half-width grapheme advances the running column by exactly one cell, a full-width one by exactly two |
| Lines.From | src/editor/line.rs:34-56 | one fragment per cluster, in order, keeping its text; half width exactly when the measured width is 0 or 1; replacement `'.'` exactly when the measured width is 0, no replacement otherwise |
| Lines.FromKeepsText | src/editor/line.rs:48-52 | the fragments of a built line spell the input text, replacements ignored |
| Lines.PrefixWidth | src/editor/line.rs:63-78 | the column where fragment `n` starts is between `n` and `2n`, because every fragment is one or two cells |
| Lines.WidthUntil | src/editor/view.rs:138-142 | the column of grapheme `i` is 0 at `i = 0` and the whole line's width for `i` at or past the end; it lies strictly inside the line's width before the end; it is between `min(i, len)` and twice that |
| Lines.WidthUntilStep | src/editor/line.rs:64 | the column of grapheme `i + 1` is the column of grapheme `i` plus that grapheme's width |
| Lines.PrefixWidthMonotone | src/editor/line.rs:64-78 | fragment `j` starts at least `j - i` cells right of fragment `i` |
| Lines.Walk | src/editor/line.rs:62-79 | the renderer's loop with a running column emits at most one piece per remaining fragment |
| Lines.GraphemePieces | src/editor/line.rs:57-81 | an empty or reversed range draws nothing; at most one piece per fragment, so never more pieces than `len()` |
| Lines.GetGraphemes | src/editor/line.rs:57-61 | the text for a range with `start >= end` is the empty string |
| Lines.GetGraphemesLoop | src/editor/line.rs:57-81 | the imperative loop with the early return and the `break` computes the same text as the recursive definition |
| Lines.WalkSuffix | src/editor/line.rs:63-79 | from any fragment on, the loop emits exactly the reference pieces of the remaining fragments |
| Lines.ReferenceStops | src/editor/line.rs:65-67 | once the running column reaches `end`, no later fragment meets the range, so stopping the loop there loses nothing |
| Lines.ReferenceOfEmptyRange | src/editor/line.rs:59-61 | no fragment meets an empty range, so the early return agrees with the reference |
| Lines.GraphemePiecesMatchReference | src/editor/line.rs:57-81 | the renderer emits, in line order, one piece for each fragment whose column span meets the range and nothing for the others |
| Lines.PieceOfFragment | src/editor/line.rs:68-76 | a fragment wholly inside the range is drawn as its replacement if it has one and as its grapheme otherwise; one that meets the range but starts before `start` or ends after `end` is exactly one `⋯`; one that misses it adds nothing |
| Lines.WalkColumns | src/editor/line.rs:63-79 | the pieces emitted from any fragment on occupy exactly the cells of the range that those fragments cover |
| Lines.RenderedColumns | src/editor/line.rs:57-81 | the drawn pieces fill exactly the cells of `[start, end)` covered by the line, never more than `end - start` |
| Lines.WalkWholeLine | src/editor/line.rs:63-79 | over `[0, total width)` every remaining fragment is drawn whole |
| Lines.WholeLineRendersEveryGlyph | src/editor/line.rs:63-84 | drawing `[0, total width)` gives the concatenation of every fragment's replacement or text, in order |
| Lines.WalkShortLine | src/editor/line.rs:63-79 | from any fragment on, a range from column 0 reaching at least the line's end draws every remaining fragment whole |
| Lines.ShortLineRendersEveryGlyph | src/editor/line.rs:57-81 | a range `[0, end)` with `end` at or past the line's width gives every fragment's replacement or text, in order, as for a window wider than the line |
| Lines.WalkPastLine | src/editor/line.rs:63-79 | from any fragment on, a range starting at or past the line's end draws nothing |
| Lines.RangePastLineIsEmpty | src/editor/line.rs:57-81 | a range starting at or past the line's width gives the empty string |
| Buffers.Get | src/editor/view.rs:140 | a line is returned exactly when the index is below the line count, and it is the line at that index |
| Buffers.LineLen | src/editor/view.rs:185-189 | the grapheme count of the line at the index, or 0 when there is no such line |
| Commands.Decode | src/editor/command.rs:25-50 | `'q'` decodes to `Quit` exactly when the modifiers are exactly control, and with any other modifiers it is an unsupported-key error; each of the eight navigation keys decodes to `Move` in its own direction whatever the modifiers; a resize keeps both dimensions; every other key and every other event is an error; `Insert` is never produced |
| Commands.DecodeRoundTrip | src/editor/command.rs:25-50 | every command with a canonical event decodes back from it, and every decoded command has one |
| Views.SnapToValidGrapheme | src/editor/view.rs:207-215 | the grapheme index is kept if it fits its line and otherwise lowered to the line's length (0 past the last line); the line is unchanged |
| Views.SnapToValidLine | src/editor/view.rs:216-218 | the line index is kept if at most the line count and otherwise becomes the line count |
| Views.MoveUp | src/editor/view.rs:167-170 | moves up by `step` lines, stopping at line 0; the grapheme index becomes `min(index, length of the new line)`; a location within the buffer ends valid |
| Views.MoveDown | src/editor/view.rs:171-175 | the line becomes `min(line + step, total_lines)`; on an existing line the grapheme index becomes `min(index, length of that line)`, past the last line it is 0; the result is always valid |
| Views.MoveToLineEnd | src/editor/view.rs:197-203 | the grapheme index becomes the length of the current line (0 past the last line) |
| Views.MoveToLineStart | src/editor/view.rs:204-206 | the grapheme index becomes 0 on the same line |
| Views.MoveLeft | src/editor/view.rs:176-183 | a positive grapheme index is decremented; at index 0 the cursor goes to the end of the line above, staying on line 0 at the top; validity is preserved |
| Views.MoveRight | src/editor/view.rs:184-196 | inside a line the grapheme index is incremented; at or past the end the cursor goes to grapheme 0 of the next line, clamped to the line count; the result is always valid |
| Views.Step | src/editor/view.rs:153-166 | Home sets the grapheme index to 0 and End to the line length; Left and Right are the one-grapheme moves with their line wrapping; Up and Down move one line and Page Up and Page Down `height - 1` lines; every movement keeps a valid location valid |
| Views.LeftAtOrigin | src/editor/view.rs:176-183 | Left at line 0, grapheme 0 lands at the end of line 0 |
| Views.LocToPos | src/editor/view.rs:138-144 | the row is the line index; on an existing line the column is that line's `width_until(grapheme_index)`, between `k` and `2k` for `k` the grapheme index clamped to the line's length; past the last line the column is 0 |
| Views.CaretPosition | src/editor/view.rs:145-147 | added back to the scroll offset, the caret cell gives the document position, on each axis where the offset does not exceed it |
| Views.RightAdvancesColumn | src/editor/view.rs:138-142 | moving right inside a line moves the screen column by the width of the grapheme passed and leaves the row alone |
| Views.ScrollAxis | src/editor/view.rs:104-117 | with a positive extent the target ends inside the window; a visible target leaves the offset alone and an invisible one changes it; a target before the window becomes the offset; a target past it becomes the last visible cell |
| Views.ScrollHorizontal | src/editor/view.rs:104-117 | only the column offset and the redraw mark change; with positive width the target column is visible afterwards; a visible target changes nothing; the mark becomes true exactly when the offset moved and is never cleared |
| Views.ScrollVertical | src/editor/view.rs:118-131 | the same for the row offset and the height |
| Views.ScrollScreen | src/editor/view.rs:99-103 | each axis scrolls independently by the one-axis rule, towards the cursor's column and row; on each axis with a positive extent the cursor's position is then inside the window; location, buffer and size are unchanged; the redraw mark becomes true exactly when the window moved |
| Views.MoveLocation | src/editor/view.rs:153-166 | the location is updated by the movement and the screen is then scrolled; buffer and size are unchanged; a valid location stays valid; with a non-empty viewport the offset does not exceed the cursor's position on either axis and the caret lies in `[0, width) x [0, height)`; if the new position is already inside the window, the window and the redraw mark stay as they were; otherwise the mark becomes true and is never cleared |
| Views.ZeroWidthScrollsPastCursor | src/editor/view.rs:104-117 | on a viewport of width 0 with the window at column 0, every movement leaves the column offset one cell past the cursor's column and the caret at column 0 |
| Views.Resize | src/editor/view.rs:51-54 | the size is replaced and the view is marked for redraw, nothing else changes |
| Views.Insert | src/editor/view.rs:90-94 | the buffer is the edited buffer; the cursor moves one grapheme right in it and ends valid; size and offset are unchanged; the view is marked for redraw |
| Views.CommandHandler | src/editor/view.rs:36-43 | Quit changes nothing; Move is the movement with scrolling; Resize replaces the size and marks for redraw; Insert is exactly the view's insertion (edit, then one step right, no scroll), the only command that changes the buffer, and always marks for redraw; no command clears the redraw mark; movements put the caret on a non-empty screen; a valid location stays valid and Insert always ends valid |
| Views.WelcomeMessage | src/editor/view.rs:221-236 | `" "` for width 0; `"~"` when the width is at most the message length; otherwise `"~"`, `(width - len) / 2` spaces and the whole message, at most `width` long, with the left padding equal to the space left on the right or one more |
| Views.Render | src/editor/view.rs:59-84 | nothing happens when the view is not marked; a marked view with zero width or height is returned still marked and nothing is drawn; otherwise exactly `height` rows are drawn and the mark is cleared; row `r` is buffer line `offset.row + r` cut to `[offset.col, offset.col + width)` when it exists, otherwise the banner on row `(height / 3) * 2` of an empty buffer and `"~"` elsewhere |
| Views.RenderIdempotent | src/editor/view.rs:59-68 | a second render with no change in between draws nothing and leaves the view as the first left it |
| Views.EmptyBufferScreen | src/editor/view.rs:69-81 | on an empty buffer every row is `"~"` except row `(height / 3) * 2`, which shows the banner |
| Views.RowsFitScreen | src/editor/view.rs:71-81 | a buffer row fills exactly the cells of the window its line covers, never more than `width`; the banner and `~` rows are between 1 and `width` characters |
| Views.HalfWidthColumns | src/editor/line.rs:12-21 | on a line of half-width graphemes the column of grapheme `n` is `n` |
| Views.RightStepOnHalfWidthLine | src/editor/view.rs:104-117 | one step right along a visible half-width line advances the cursor one grapheme, keeps the row offset, and scrolls the window only when the cursor passes its right edge |
| Views.RightAcrossHalfWidthLine | src/editor/view.rs:184-196 | from grapheme 0 of a visible half-width line with the column offset at 0, after `k` steps right (at most the line's length) the cursor is on grapheme `k` of that line, the column offset is `max(0, k - width + 1)`, the row offset is unchanged, and the view is marked for redraw exactly when it already was or the window scrolled |

## Left out

- Terminal I/O (`src/editor/terminal.rs`): raw mode, cursor moves, printing and flushing are left out. `render` returns the rows' text instead of calling `print_at`, and `render_line`'s debug assertion on the print result is not modelled.
- The terminal size query in `View::default` is left out. `Views.Initial` takes the size as a parameter.
- File loading (`Buffer::load_file`, `View::load_file` and its panic) is left out as filesystem I/O. A view can be built over any buffer.
- `Buffer::insert_at` is not modelled. `Views.Insert` takes the buffer edit as a function parameter, and only the view-level effects are proved.
- Grapheme segmentation and width measurement (the `unicode_segmentation` and `unicode_width` crates) are left out. `Lines.From` takes segmented clusters with their measured widths.
- The `NAME` and `VERSION` build constants are left out. The banner message is a parameter of `Views.WelcomeMessage` and `Views.Render`.
- Views.WelcomeMessage: lengths are counted in characters, while the program counts and truncates in bytes. The two agree for an ASCII package name and version.
- Views.MoveDown: the line index is added without the machine-word saturation of `saturating_add`. The result is clamped to the line count right after, which gives the same location whenever the line count fits in a machine word.
- Views.Step: Page Up and Page Down need `height >= 1`, because the program computes `height - 1` on an unsigned word.
- The event loop (`src/editor.rs`) and the program entry point (`src/main.rs`) are left out as I/O plumbing. The event loop in `src/editor.rs` does not use the view.
- Geometry.Subtract: `Position::subtract`, which `caret_position` calls (`src/editor/view.rs:146`), has no definition in the program; the model assumes component-wise saturating subtraction. After any movement on a viewport of positive width and height the offset never exceeds the cursor's position (`Views.MoveLocation`). With a zero width or height the scroll puts the offset one cell past the cursor, and an insertion that wraps to the next line can leave the column offset past it. Only in those cases does the saturating assumption decide the caret cell.
- Commands.Decode: mouse events are a single constructor without coordinates, and the set of key codes and modifiers is a representative one. The decoder treats all of them alike.

=== FILE: buffers.dfy ===
/** The document: an ordered sequence of lines. An empty buffer is the
    "no file" state. */
module Buffers {
  import opened Wrappers
  import opened Lines

  datatype Buffer = Buffer(lines: seq<Line>)

  function TotalLines(b: Buffer): (n: nat)
    ensures n == |b.lines|
  {
    |b.lines|
  }

  /** True exactly when the buffer has no line. */
  function IsEmpty(b: Buffer): (r: bool)
    ensures r <==> TotalLines(b) == 0
    ensures r <==> Get(b, 0).None?
  {
    |b.lines| == 0
  }

  /** The line at `index`, if the buffer has one (`lines.get(index)`). */
  function Get(b: Buffer, index: nat): (r: Option<Line>)
    ensures r.Some? <==> index < TotalLines(b)
    ensures r.Some? ==> r.value == b.lines[index]
  {
    if index < |b.lines| then Some(b.lines[index]) else None
  }

  /** Grapheme count of line `index`, or 0 past the last line. */
  function LineLen(b: Buffer, index: nat): (n: nat)
    ensures index >= TotalLines(b) ==> n == 0
    ensures index < TotalLines(b) ==> n == Len(b.lines[index])
  {
    match Get(b, index)
    case Some(line) => Len(line)
    case None => 0
  }
}

=== FILE: commands.dfy ===
/** Terminal input events and their translation into editor commands. */
module Commands {
  import opened Wrappers
  import opened Geometry

  newtype u16 = x: int | 0 <= x < 0x1_0000

  datatype Direction = Up | Down | Left | Right | PageUp | PageDown | Home | End

  datatype Command = Move(direction: Direction) | Insert(c: char) | Resize(size: Size) | Quit

  /** Keyboard modifier flags; a key event carries a set of them. */
  datatype Modifier = Shift | Control | Alt | Super | Hyper | Meta

  datatype KeyCode =
    | Backspace | Enter | LeftKey | RightKey | UpKey | DownKey | HomeKey | EndKey
    | PageUpKey | PageDownKey | Tab | BackTab | Delete | InsertKey | F(n: nat)
    | Char(c: char) | Null | Esc | CapsLock | ScrollLock | NumLock | PrintScreen
    | Pause | Menu | KeypadBegin

  datatype KeyEvent = KeyEvent(code: KeyCode, modifiers: set<Modifier>)

  datatype Event =
    | FocusGained | FocusLost | Key(key: KeyEvent) | Mouse | Paste(text: string)
    | ResizeEvent(columns: u16, rows: u16)

  /** Error texts exactly as the decoder builds them: plain literals, the
      braces are not interpolated. */
  const UnsupportedKey: string := "Unsupported key: {code:?}"
  const UnsupportedEvent: string := "Unsupported event: {event:?}"

  /** The navigation key that moves in direction `d`. */
  function KeyFor(d: Direction): (k: KeyCode)
    ensures !k.Char?
  {
    match d
    case Up => UpKey
    case Down => DownKey
    case Left => LeftKey
    case Right => RightKey
    case PageUp => PageUpKey
    case PageDown => PageDownKey
    case Home => HomeKey
    case End => EndKey
  }

  predicate IsNavigation(k: KeyCode) {
    k.UpKey? || k.DownKey? || k.LeftKey? || k.RightKey?
    || k.PageUpKey? || k.PageDownKey? || k.HomeKey? || k.EndKey?
  }

  /** Decodes a terminal event: control-q quits, the eight navigation keys
      move whatever the modifiers, a resize carries the new size, and every
      other event is unsupported. */
  function Decode(e: Event): (r: Result<Command, string>)
    ensures r == Ok(Quit) <==> e.Key? && e.key.code == Char('q') && e.key.modifiers == {Control}
    ensures e.Key? && e.key.code == Char('q') && e.key.modifiers != {Control} ==> r == Err(UnsupportedKey)
    ensures forall d: Direction :: e.Key? && e.key.code == KeyFor(d) ==> r == Ok(Move(d))
    ensures e.ResizeEvent? ==> r == Ok(Resize(Size(e.columns as nat, e.rows as nat)))
    ensures e.Key? && !IsNavigation(e.key.code) && e.key.code != Char('q') ==> r == Err(UnsupportedKey)
    ensures !e.Key? && !e.ResizeEvent? ==> r == Err(UnsupportedEvent)
    ensures r.Ok? ==> !r.value.Insert?
  {
    match e
    case Key(KeyEvent(code, modifiers)) =>
      if code == Char('q') && modifiers == {Control} then Ok(Quit)
      else (
        match code
        case UpKey => Ok(Move(Up))
        case DownKey => Ok(Move(Down))
        case LeftKey => Ok(Move(Left))
        case RightKey => Ok(Move(Right))
        case PageUpKey => Ok(Move(PageUp))
        case PageDownKey => Ok(Move(PageDown))
        case HomeKey => Ok(Move(Home))
        case EndKey => Ok(Move(End))
        case _ => Err(UnsupportedKey))
    case ResizeEvent(w, h) => Ok(Resize(Size(w as nat, h as nat)))
    case _ => Err(UnsupportedEvent)
  }

  /** A canonical event for each command the decoder can produce: the bare
      navigation key, control-q, or a resize notification (only sizes that
      fit the event's 16-bit fields). */
  function EventFor(c: Command): Option<Event> {
    match c
    case Move(d) => Some(Key(KeyEvent(KeyFor(d), {})))
    case Quit => Some(Key(KeyEvent(Char('q'), {Control})))
    case Resize(Size(w, h)) =>
      if w < 0x1_0000 && h < 0x1_0000 then Some(ResizeEvent(w as u16, h as u16)) else None
    case Insert(_) => None
  }

  /** Every command the decoder can produce is reached by its canonical
      event, and a decoded command always has one. */
  lemma DecodeRoundTrip(c: Command, e: Event)
    ensures EventFor(c).Some? ==> Decode(EventFor(c).value) == Ok(c)
    ensures Decode(e) == Ok(c) ==> EventFor(c).Some?
  {
  }
}

=== FILE: geometry.dfy ===
/** Screen geometry used by the view: a viewport size in cells and a
    (column, row) position. Both are unsigned machine words in the program;
    here they are natural numbers. */
module Geometry {

  datatype Size = Size(width: nat, height: nat)

  datatype Position = Position(col: nat, row: nat)

  function Min(a: nat, b: nat): nat {
    if a <= b then a else b
  }

  /** `a - b`, stopping at 0. */
  function SaturatingSub(a: nat, b: nat): (r: nat)
    ensures b <= a ==> r + b == a
    ensures a < b ==> r == 0
  {
    if a >= b then a - b else 0
  }

  /** Component-wise saturating subtraction: the caret position relative to
      the scroll offset. */
  function Subtract(p: Position, origin: Position): (r: Position)
    ensures origin.col <= p.col ==> r.col + origin.col == p.col
    ensures origin.row <= p.row ==> r.row + origin.row == p.row
    ensures p.col < origin.col ==> r.col == 0
    ensures p.row < origin.row ==> r.row == 0
  {
    Position(SaturatingSub(p.col, origin.col), SaturatingSub(p.row, origin.row))
  }
}

=== FILE: lines.dfy ===
/** A line of text as a sequence of grapheme fragments, each with a display
    width and an optional replacement glyph, and the column-range renderer
    that draws a horizontal slice of it. */
module Lines {
  import opened Wrappers
  import opened Geometry

  /** Display width of one grapheme cluster: one cell or two cells. */
  datatype GraphemeWidth = Half | Full

  /** `width + column`: the column just after a grapheme that starts at
      `other`. */
  function Add(w: GraphemeWidth, other: nat): (r: nat)
    ensures w == Half <==> r == other + 1
    ensures w == Full <==> r == other + 2
  {
    match w
    case Half => other + 1
    case Full => other + 2
  }

  /** Number of terminal cells a width occupies. */
  function Columns(w: GraphemeWidth): (n: nat)
    ensures 1 <= n <= 2
  {
    Add(w, 0)
  }

  datatype Fragment = Fragment(grapheme: string, width: GraphemeWidth, replacement: Option<char>)

  datatype Line = Line(fragments: seq<Fragment>)

  /** A grapheme cluster as produced by segmentation, together with the
      display width the measuring library reported for it. */
  datatype Cluster = Cluster(text: string, measured: nat)

  /** Glyph drawn in place of a zero-width grapheme. */
  const ZeroWidthGlyph: char := '.'

  /** Glyph drawn for a grapheme cut by the edge of the visible range. */
  const ClipGlyph: char := '⋯'

  function FragmentOf(c: Cluster): Fragment {
    Fragment(c.text,
             if c.measured <= 1 then Half else Full,
             if c.measured == 0 then Some(ZeroWidthGlyph) else None)
  }

  /** Builds a line from already segmented and measured clusters: one
      fragment per cluster, half width for a measured width of 0 or 1, full
      width otherwise, and a replacement glyph exactly for zero width. */
  function From(clusters: seq<Cluster>): (line: Line)
    ensures |line.fragments| == |clusters|
    ensures forall i :: 0 <= i < |clusters| ==> line.fragments[i].grapheme == clusters[i].text
    ensures forall i :: 0 <= i < |clusters| ==>
      (line.fragments[i].width == Half <==> clusters[i].measured <= 1)
    ensures forall i :: 0 <= i < |clusters| ==>
      (line.fragments[i].replacement == Some(ZeroWidthGlyph) <==> clusters[i].measured == 0)
    ensures forall i :: 0 <= i < |clusters| ==>
      (line.fragments[i].replacement == None <==> clusters[i].measured != 0)
  {
    Line(seq(|clusters|, i requires 0 <= i < |clusters| => FragmentOf(clusters[i])))
  }

  /** Number of graphemes of the line. */
  function Len(line: Line): (n: nat)
    ensures n == |line.fragments|
  {
    |line.fragments|
  }

  /** Concatenated text of the clusters. */
  function ClusterText(clusters: seq<Cluster>): string {
    if |clusters| == 0 then "" else clusters[0].text + ClusterText(clusters[1..])
  }

  /** Concatenated grapheme text of the fragments, replacements ignored. */
  function FragmentText(frags: seq<Fragment>): string {
    if |frags| == 0 then "" else frags[0].grapheme + FragmentText(frags[1..])
  }

  /** Building a line loses no text: its graphemes spell the input. */
  lemma {:induction false} FromKeepsText(clusters: seq<Cluster>)
    ensures FragmentText(From(clusters).fragments) == ClusterText(clusters)
  {
    if |clusters| > 0 {
      FromKeepsText(clusters[1..]);
      assert From(clusters).fragments[1..] == From(clusters[1..]).fragments;
    }
  }

  // ---------------------------------------------------------------------
  // Column accounting

  /** Column at which fragment `n` starts: the widths of the first `n`
      fragments, accumulated with `Add`. */
  function PrefixWidth(frags: seq<Fragment>, n: nat): (w: nat)
    requires n <= |frags|
    ensures n <= w <= 2 * n
  {
    if n == 0 then 0 else Add(frags[n - 1].width, PrefixWidth(frags, n - 1))
  }

  /** Display width of the whole line. */
  function TotalWidth(line: Line): nat {
    PrefixWidth(line.fragments, |line.fragments|)
  }

  /** Screen column of grapheme `index`: the widths of the graphemes before
      it, with an index past the end counting the whole line. */
  function WidthUntil(line: Line, index: nat): (w: nat)
    ensures index == 0 ==> w == 0
    ensures index >= Len(line) ==> w == TotalWidth(line)
    ensures index < Len(line) ==> w < TotalWidth(line)
    ensures var k := Min(index, Len(line)); k <= w <= 2 * k
  {
    var k := Min(index, Len(line));
    if index < Len(line) then
      PrefixWidthMonotone(line.fragments, index + 1, Len(line));
      PrefixWidth(line.fragments, k)
    else
      PrefixWidth(line.fragments, k)
  }

  /** Moving one grapheme right moves the screen column by that grapheme's
      width. */
  lemma WidthUntilStep(line: Line, index: nat)
    requires index < Len(line)
    ensures WidthUntil(line, index + 1) == WidthUntil(line, index) + Columns(line.fragments[index].width)
  {
  }

  /** Every fragment is at least one cell wide, so later fragments start
      strictly further right. */
  lemma {:induction false} PrefixWidthMonotone(frags: seq<Fragment>, i: nat, j: nat)
    requires i <= j <= |frags|
    ensures PrefixWidth(frags, i) + (j - i) <= PrefixWidth(frags, j)
    decreases j
  {
    if i < j {
      PrefixWidthMonotone(frags, i, j - 1);
    }
  }

  // ---------------------------------------------------------------------
  // Rendering a column range

  /** What one fragment contributes to a rendered range: either the whole
      fragment or the clip marker. */
  datatype Piece = Clipped | Whole(fragment: Fragment)

  /** Text of a fragment drawn whole: its replacement, else its grapheme. */
  function Glyph(f: Fragment): string {
    match f.replacement
    case Some(c) => [c]
    case None => f.grapheme
  }

  function PieceText(p: Piece): string {
    match p
    case Clipped => [ClipGlyph]
    case Whole(f) => Glyph(f)
  }

  /** Cells a piece occupies on screen, in the line's own accounting. */
  function PieceColumns(p: Piece): nat {
    match p
    case Clipped => 1
    case Whole(f) => Columns(f.width)
  }

  function Text(ps: seq<Piece>): string {
    if |ps| == 0 then "" else PieceText(ps[0]) + Text(ps[1..])
  }

  function SumColumns(ps: seq<Piece>): nat {
    if |ps| == 0 then 0 else PieceColumns(ps[0]) + SumColumns(ps[1..])
  }

  /** The loop of the renderer from fragment `k` on, with `pos` the running
      column: stop once `pos` reaches `end`, skip fragments that end at or
      before `start`, emit a clip marker for a fragment cut by either edge
      and the fragment itself otherwise. */
  function Walk(frags: seq<Fragment>, k: nat, pos: nat, start: nat, end: nat): (ps: seq<Piece>)
    requires k <= |frags|
    ensures |ps| <= |frags| - k
    decreases |frags| - k
  {
    if k == |frags| || pos >= end then []
    else
      var next := Add(frags[k].width, pos);
      var here := if next > start then
                    [if next > end || pos < start then Clipped else Whole(frags[k])]
                  else [];
      here + Walk(frags, k + 1, next, start, end)
  }

  /** The pieces drawn for the column range `[start, end)`; an empty or
      reversed range draws nothing. At most one piece per fragment. */
  function GraphemePieces(line: Line, start: nat, end: nat): (ps: seq<Piece>)
    ensures |ps| <= Len(line)
    ensures start >= end ==> ps == []
  {
    if start >= end then [] else Walk(line.fragments, 0, 0, start, end)
  }

  /** The text drawn for the column range `[start, end)`. */
  function GetGraphemes(line: Line, start: nat, end: nat): (s: string)
    ensures start >= end ==> s == ""
  {
    Text(GraphemePieces(line, start, end))
  }

  /** The renderer's loop, written as the program writes it. */
  method GetGraphemesLoop(line: Line, start: nat, end: nat) returns (ret: string)
    ensures ret == GetGraphemes(line, start, end)
  {
    ret := "";
    if start >= end {
      return;
    }
    var frags := line.fragments;
    var pos: nat := 0;
    var i := 0;
    while i < |frags|
      invariant 0 <= i <= |frags|
      invariant ret + Text(Walk(frags, i, pos, start, end)) == Text(Walk(frags, 0, 0, start, end))
    {
      var fragEnd := Add(frags[i].width, pos);
      if pos >= end {
        break;
      }
      ghost var rest := Walk(frags, i + 1, fragEnd, start, end);
      if fragEnd > start {
        var piece := if fragEnd > end || pos < start then Clipped else Whole(frags[i]);
        assert Walk(frags, i, pos, start, end) == [piece] + rest;
        assert ([piece] + rest)[1..] == rest;
        ret := ret + PieceText(piece);
      } else {
        assert Walk(frags, i, pos, start, end) == rest;
      }
      pos := fragEnd;
      i := i + 1;
    }
  }

  // ---------------------------------------------------------------------
  // Reference definition of the renderer, fragment by fragment

  /** The column span `[pos, pos + cols)` shares a cell with `[start, end)`. */
  predicate Meets(pos: nat, cols: nat, start: nat, end: nat) {
    start < end && pos < end && start < pos + cols
  }

  /** A fragment at `pos` that meets the range is drawn whole when its span
      lies inside the range and as a clip marker otherwise. */
  function Expected(f: Fragment, pos: nat, start: nat, end: nat): Piece {
    if start <= pos && pos + Columns(f.width) <= end then Whole(f) else Clipped
  }

  /** Pieces of the first `n` fragments: one per fragment whose span meets
      the range, in line order. */
  function Reference(frags: seq<Fragment>, n: nat, start: nat, end: nat): seq<Piece>
    requires n <= |frags|
  {
    if n == 0 then []
    else
      var pos := PrefixWidth(frags, n - 1);
      var f := frags[n - 1];
      Reference(frags, n - 1, start, end)
        + (if Meets(pos, Columns(f.width), start, end) then [Expected(f, pos, start, end)] else [])
  }

  /** Once the running column has reached `end`, no later fragment meets
      the range. */
  lemma {:induction false} ReferenceStops(frags: seq<Fragment>, k: nat, j: nat, start: nat, end: nat)
    requires k <= j <= |frags|
    requires PrefixWidth(frags, k) >= end
    ensures Reference(frags, j, start, end) == Reference(frags, k, start, end)
    decreases j
  {
    if k < j {
      ReferenceStops(frags, k, j - 1, start, end);
      PrefixWidthMonotone(frags, k, j - 1);
    }
  }

  lemma {:induction false} WalkSuffix(frags: seq<Fragment>, k: nat, start: nat, end: nat)
    requires k <= |frags|
    requires start < end
    ensures Reference(frags, k, start, end) + Walk(frags, k, PrefixWidth(frags, k), start, end)
            == Reference(frags, |frags|, start, end)
    decreases |frags| - k
  {
    var pos := PrefixWidth(frags, k);
    if k == |frags| {
    } else if pos >= end {
      ReferenceStops(frags, k, |frags|, start, end);
    } else {
      var next := Add(frags[k].width, pos);
      assert next == pos + Columns(frags[k].width);
      assert PrefixWidth(frags, k + 1) == next;
      WalkSuffix(frags, k + 1, start, end);
    }
  }

  lemma {:induction false} ReferenceOfEmptyRange(frags: seq<Fragment>, n: nat, start: nat, end: nat)
    requires n <= |frags|
    requires start >= end
    ensures Reference(frags, n, start, end) == []
  {
    if n > 0 {
      ReferenceOfEmptyRange(frags, n - 1, start, end);
    }
  }

  /** The renderer emits exactly the reference pieces: one piece for each
      fragment whose span meets the range, whole when inside and a clip
      marker when cut, and nothing for the rest. */
  lemma GraphemePiecesMatchReference(line: Line, start: nat, end: nat)
    ensures GraphemePieces(line, start, end) == Reference(line.fragments, Len(line), start, end)
  {
    if start >= end {
      ReferenceOfEmptyRange(line.fragments, Len(line), start, end);
    } else {
      WalkSuffix(line.fragments, 0, start, end);
    }
  }

  /** A fragment whose span lies inside a non-empty range is drawn as its
      glyph; one that meets the range but sticks out is drawn as one clip
      marker; one that misses the range contributes nothing. */
  lemma PieceOfFragment(line: Line, i: nat, start: nat, end: nat)
    requires i < Len(line)
    ensures var f := line.fragments[i];
            var pos := WidthUntil(line, i);
            var ps := Reference(line.fragments, i + 1, start, end);
            var before := Reference(line.fragments, i, start, end);
            && ((start <= pos && pos + Columns(f.width) <= end && start < end)
                  ==> ps == before + [Whole(f)] && PieceText(Whole(f)) == Glyph(f))
            && ((Meets(pos, Columns(f.width), start, end) && (pos < start || pos + Columns(f.width) > end))
                  ==> ps == before + [Clipped] && PieceText(Clipped) == [ClipGlyph])
            && (!Meets(pos, Columns(f.width), start, end) ==> ps == before)
  {
  }

  // ---------------------------------------------------------------------
  // Properties of rendering

  /** Number of cells of `[start, end)` that the line actually covers. */
  function Visible(start: nat, end: nat, total: nat): nat {
    SaturatingSub(Min(end, total), start)
  }

  lemma {:induction false} WalkColumns(frags: seq<Fragment>, k: nat, start: nat, end: nat)
    requires k <= |frags|
    requires start < end
    ensures var pos := PrefixWidth(frags, k);
            SumColumns(Walk(frags, k, pos, start, end))
              == Visible(if start < pos then pos else start, end, PrefixWidth(frags, |frags|))
    decreases |frags| - k
  {
    var pos := PrefixWidth(frags, k);
    PrefixWidthMonotone(frags, k, |frags|);
    if k < |frags| && pos < end {
      var next := Add(frags[k].width, pos);
      WalkColumns(frags, k + 1, start, end);
      PrefixWidthMonotone(frags, k + 1, |frags|);
      var rest := Walk(frags, k + 1, next, start, end);
      assert next == pos + Columns(frags[k].width);
      assert PrefixWidth(frags, k + 1) == next;
      if next > start {
        var piece := if next > end || pos < start then Clipped else Whole(frags[k]);
        assert Walk(frags, k, pos, start, end) == [piece] + rest;
        assert ([piece] + rest)[1..] == rest;
      } else {
        assert Walk(frags, k, pos, start, end) == rest;
      }
    }
  }

  /** The drawn pieces fill exactly the cells of the range that the line
      covers: a rendered row is never wider than the range asked for. */
  lemma RenderedColumns(line: Line, start: nat, end: nat)
    ensures SumColumns(GraphemePieces(line, start, end)) == Visible(start, end, TotalWidth(line))
    ensures SumColumns(GraphemePieces(line, start, end)) <= if start < end then end - start else 0
  {
    if start < end {
      WalkColumns(line.fragments, 0, start, end);
    }
  }

  /** Glyphs of fragments `k..` concatenated. */
  function Glyphs(frags: seq<Fragment>, k: nat): string
    requires k <= |frags|
    decreases |frags| - k
  {
    if k == |frags| then "" else Glyph(frags[k]) + Glyphs(frags, k + 1)
  }

  lemma {:induction false} WalkWholeLine(frags: seq<Fragment>, k: nat)
    requires k <= |frags|
    ensures var total := PrefixWidth(frags, |frags|);
            Text(Walk(frags, k, PrefixWidth(frags, k), 0, total)) == Glyphs(frags, k)
    decreases |frags| - k
  {
    var total := PrefixWidth(frags, |frags|);
    if k < |frags| {
      var pos := PrefixWidth(frags, k);
      PrefixWidthMonotone(frags, k + 1, |frags|);
      WalkWholeLine(frags, k + 1);
      var rest := Walk(frags, k + 1, PrefixWidth(frags, k + 1), 0, total);
      assert Walk(frags, k, pos, 0, total) == [Whole(frags[k])] + rest;
      assert ([Whole(frags[k])] + rest)[1..] == rest;
    }
  }

  /** Drawing the full width of a line draws every fragment whole, in order. */
  lemma WholeLineRendersEveryGlyph(line: Line)
    ensures GetGraphemes(line, 0, TotalWidth(line)) == Glyphs(line.fragments, 0)
  {
    if Len(line) == 0 {
    } else {
      PrefixWidthMonotone(line.fragments, 0, Len(line));
      WalkWholeLine(line.fragments, 0);
    }
  }

  /** From fragment `k` on, a range that starts at column 0 and reaches at
      least the end of the line draws every remaining fragment whole. */
  lemma {:induction false} WalkShortLine(frags: seq<Fragment>, k: nat, end: nat)
    requires k <= |frags|
    requires end >= PrefixWidth(frags, |frags|)
    ensures Text(Walk(frags, k, PrefixWidth(frags, k), 0, end)) == Glyphs(frags, k)
    decreases |frags| - k
  {
    if k < |frags| {
      var pos := PrefixWidth(frags, k);
      PrefixWidthMonotone(frags, k + 1, |frags|);
      WalkShortLine(frags, k + 1, end);
      var rest := Walk(frags, k + 1, PrefixWidth(frags, k + 1), 0, end);
      assert Walk(frags, k, pos, 0, end) == [Whole(frags[k])] + rest;
      assert ([Whole(frags[k])] + rest)[1..] == rest;
    }
  }

  /** A window wider than the line, starting at column 0, shows the whole
      line: every fragment's glyph, in order. */
  lemma ShortLineRendersEveryGlyph(line: Line, end: nat)
    requires end >= TotalWidth(line)
    ensures GetGraphemes(line, 0, end) == Glyphs(line.fragments, 0)
  {
    if end > 0 {
      WalkShortLine(line.fragments, 0, end);
    }
  }

  /** From fragment `k` on, a range starting at or past the end of the line
      draws nothing: every remaining fragment ends at or before `start`. */
  lemma {:induction false} WalkPastLine(frags: seq<Fragment>, k: nat, start: nat, end: nat)
    requires k <= |frags|
    requires start >= PrefixWidth(frags, |frags|)
    ensures Walk(frags, k, PrefixWidth(frags, k), start, end) == []
    decreases |frags| - k
  {
    if k < |frags| {
      PrefixWidthMonotone(frags, k + 1, |frags|);
      WalkPastLine(frags, k + 1, start, end);
    }
  }

  /** A range that starts at or past the end of the line shows nothing. */
  lemma RangePastLineIsEmpty(line: Line, start: nat, end: nat)
    requires start >= TotalWidth(line)
    ensures GetGraphemes(line, start, end) == ""
  {
    if start < end {
      WalkPastLine(line.fragments, 0, start, end);
    }
  }
}

=== FILE: views.dfy ===
/** The view: a buffer seen through a terminal-sized window. It keeps the
    cursor location inside the document, scrolls the window so the cursor
    stays visible, decides what each screen row shows, and tracks whether
    the screen is stale. */
module Views {
  import opened Wrappers
  import opened Geometry
  import opened Lines
  import opened Buffers
  import opened Commands

  /** Cursor location in document coordinates. */
  datatype Location = Location(graphemeIndex: nat, lineIndex: nat)

  datatype View = View(size: Size, buffer: Buffer, needRedraw: bool, location: Location, offset: Position)

  /** Buffer insertion of one character at a location. Its definition is
      not part of this model, so the view takes it as a parameter. */
  type Edit = (Buffer, Location, char) -> Buffer

  /** A new view of an empty buffer, sized to the terminal and due for a
      first drawing. */
  function Initial(size: Size): (v: View)
    ensures v.size == size && v.needRedraw && IsEmpty(v.buffer)
    ensures v.location == Location(0, 0) && v.offset == Position(0, 0)
    ensures ValidLocation(v.buffer, v.location)
  {
    View(size, Buffer([]), true, Location(0, 0), Position(0, 0))
  }

  /** A location is valid when its line is at most one past the last line
      and its grapheme index is at most the length of that line (0 when there
      is no such line). */
  predicate ValidLocation(b: Buffer, loc: Location) {
    loc.lineIndex <= TotalLines(b) && loc.graphemeIndex <= LineLen(b, loc.lineIndex)
  }

  // ---------------------------------------------------------------------
  // Moving the location

  /** Clamps the grapheme index to the length of its line; past the last
      line the only index is 0. */
  function SnapToValidGrapheme(b: Buffer, loc: Location): (r: Location)
    ensures r.lineIndex == loc.lineIndex
    ensures r.graphemeIndex <= loc.graphemeIndex
    ensures r.graphemeIndex <= LineLen(b, loc.lineIndex)
    ensures r.graphemeIndex == loc.graphemeIndex || r.graphemeIndex == LineLen(b, loc.lineIndex)
    ensures loc.graphemeIndex <= LineLen(b, loc.lineIndex) ==> r == loc
  {
    loc.(graphemeIndex := match Get(b, loc.lineIndex)
                          case Some(line) => Min(Len(line), loc.graphemeIndex)
                          case None => 0)
  }

  /** Clamps the line index to at most the number of lines. */
  function SnapToValidLine(b: Buffer, loc: Location): (r: Location)
    ensures r.graphemeIndex == loc.graphemeIndex
    ensures r.lineIndex <= TotalLines(b)
    ensures loc.lineIndex <= TotalLines(b) ==> r == loc
    ensures loc.lineIndex > TotalLines(b) ==> r.lineIndex == TotalLines(b)
  {
    loc.(lineIndex := Min(loc.lineIndex, TotalLines(b)))
  }

  /** Moves `step` lines up, stopping at line 0, then clamps the grapheme
      index to the new line. */
  function MoveUp(b: Buffer, loc: Location, step: nat): (r: Location)
    ensures r.lineIndex <= loc.lineIndex
    ensures r.lineIndex == 0 || r.lineIndex + step == loc.lineIndex
    ensures loc.lineIndex >= step ==> r.lineIndex + step == loc.lineIndex
    ensures r.graphemeIndex <= loc.graphemeIndex
    ensures r.graphemeIndex <= LineLen(b, r.lineIndex)
    ensures r.graphemeIndex == Min(loc.graphemeIndex, LineLen(b, r.lineIndex))
    ensures loc.lineIndex <= TotalLines(b) ==> ValidLocation(b, r)
  {
    SnapToValidGrapheme(b, loc.(lineIndex := SaturatingSub(loc.lineIndex, step)))
  }

  /** Moves `step` lines down, clamps the grapheme index to the line reached
      and then the line to at most the number of lines. */
  function MoveDown(b: Buffer, loc: Location, step: nat): (r: Location)
    ensures r.lineIndex == Min(loc.lineIndex + step, TotalLines(b))
    ensures r.graphemeIndex <= loc.graphemeIndex
    ensures loc.lineIndex + step >= TotalLines(b) ==> r.graphemeIndex == 0
    ensures loc.lineIndex + step < TotalLines(b) ==>
      r.graphemeIndex == Min(loc.graphemeIndex, LineLen(b, r.lineIndex))
    ensures ValidLocation(b, r)
  {
    SnapToValidLine(b, SnapToValidGrapheme(b, loc.(lineIndex := loc.lineIndex + step)))
  }

  /** Sets the grapheme index to the length of the current line. */
  function MoveToLineEnd(b: Buffer, loc: Location): (r: Location)
    ensures r.lineIndex == loc.lineIndex
    ensures r.graphemeIndex == LineLen(b, loc.lineIndex)
  {
    loc.(graphemeIndex := LineLen(b, loc.lineIndex))
  }

  function MoveToLineStart(loc: Location): (r: Location)
    ensures r.lineIndex == loc.lineIndex && r.graphemeIndex == 0
  {
    loc.(graphemeIndex := 0)
  }

  /** One grapheme left, or to the end of the line above from the start of
      a line (line 0 stays line 0). */
  function MoveLeft(b: Buffer, loc: Location): (r: Location)
    ensures loc.graphemeIndex > 0 ==> r == loc.(graphemeIndex := loc.graphemeIndex - 1)
    ensures loc.graphemeIndex == 0 ==>
      r.lineIndex == SaturatingSub(loc.lineIndex, 1) && r.graphemeIndex == LineLen(b, r.lineIndex)
    ensures ValidLocation(b, loc) ==> ValidLocation(b, r)
  {
    if loc.graphemeIndex > 0 then loc.(graphemeIndex := loc.graphemeIndex - 1)
    else MoveToLineEnd(b, MoveUp(b, loc, 1))
  }

  /** One grapheme right, or to the start of the next line from the end of
      a line (never past one line beyond the last). */
  function MoveRight(b: Buffer, loc: Location): (r: Location)
    ensures loc.graphemeIndex < LineLen(b, loc.lineIndex) ==>
      r == loc.(graphemeIndex := loc.graphemeIndex + 1)
    ensures loc.graphemeIndex >= LineLen(b, loc.lineIndex) ==>
      r.lineIndex == Min(loc.lineIndex + 1, TotalLines(b)) && r.graphemeIndex == 0
    ensures ValidLocation(b, r)
  {
    if loc.graphemeIndex < LineLen(b, loc.lineIndex) then loc.(graphemeIndex := loc.graphemeIndex + 1)
    else MoveToLineStart(MoveDown(b, loc, 1))
  }

  /** The location update of one movement command; the page moves go
      `height - 1` lines, which needs a non-empty viewport. */
  function Step(b: Buffer, loc: Location, d: Direction, height: nat): (r: Location)
    requires d == PageUp || d == PageDown ==> height >= 1
    ensures d == Home ==> r == loc.(graphemeIndex := 0)
    ensures d == End ==> r == loc.(graphemeIndex := LineLen(b, loc.lineIndex))
    ensures d == Left ==> r == MoveLeft(b, loc)
    ensures d == Right ==> r == MoveRight(b, loc)
    ensures d == Up ==> r == MoveUp(b, loc, 1)
    ensures d == Down ==> r == MoveDown(b, loc, 1)
    ensures d == PageUp ==> r == MoveUp(b, loc, height - 1)
    ensures d == PageDown ==> r == MoveDown(b, loc, height - 1)
    ensures ValidLocation(b, loc) ==> ValidLocation(b, r)
  {
    match d
    case Up => MoveUp(b, loc, 1)
    case Down => MoveDown(b, loc, 1)
    case Left => MoveLeft(b, loc)
    case Right => MoveRight(b, loc)
    case PageUp => MoveUp(b, loc, height - 1)
    case PageDown => MoveDown(b, loc, height - 1)
    case Home => MoveToLineStart(loc)
    case End => MoveToLineEnd(b, loc)
  }

  /** Left from the very start of the document lands at the end of line 0. */
  lemma LeftAtOrigin(b: Buffer)
    ensures MoveLeft(b, Location(0, 0)) == Location(LineLen(b, 0), 0)
  {
  }

  // ---------------------------------------------------------------------
  // Positions and scrolling

  /** Screen position of the location in document coordinates: the row is
      the line index and the column is the display width of the graphemes
      before the cursor (0 past the last line). */
  function LocToPos(v: View): (p: Position)
    ensures p.row == v.location.lineIndex
    ensures v.location.lineIndex >= TotalLines(v.buffer) ==> p.col == 0
    ensures v.location.lineIndex < TotalLines(v.buffer) ==>
      var k := Min(v.location.graphemeIndex, LineLen(v.buffer, v.location.lineIndex));
      k <= p.col <= 2 * k
    ensures v.location.lineIndex < TotalLines(v.buffer) ==>
      p.col == WidthUntil(v.buffer.lines[v.location.lineIndex], v.location.graphemeIndex)
  {
    var col := match Get(v.buffer, v.location.lineIndex)
               case Some(line) => WidthUntil(line, v.location.graphemeIndex)
               case None => 0;
    Position(col, v.location.lineIndex)
  }

  /** Cursor cell on screen: the document position relative to the scroll
      offset. */
  function CaretPosition(v: View): (p: Position)
    ensures v.offset.col <= LocToPos(v).col ==> p.col + v.offset.col == LocToPos(v).col
    ensures v.offset.row <= LocToPos(v).row ==> p.row + v.offset.row == LocToPos(v).row
  {
    Subtract(LocToPos(v), v.offset)
  }

  /** Moving right inside a line moves the cursor's screen column by the
      width of the grapheme it passes. */
  lemma RightAdvancesColumn(v: View)
    requires v.location.graphemeIndex < LineLen(v.buffer, v.location.lineIndex)
    ensures var after := v.(location := MoveRight(v.buffer, v.location));
            var line := v.buffer.lines[v.location.lineIndex];
            LocToPos(after) == LocToPos(v).(col := LocToPos(v).col
                                 + Columns(line.fragments[v.location.graphemeIndex].width))
  {
    WidthUntilStep(v.buffer.lines[v.location.lineIndex], v.location.graphemeIndex);
  }

  predicate InWindow(offset: nat, extent: nat, to: nat) {
    offset <= to < offset + extent
  }

  /** New offset along one axis: unchanged while `to` is visible, snapped to
      `to` when it is before the window, and moved so that `to` is the last
      visible cell when it is past the window. */
  function ScrollAxis(offset: nat, extent: nat, to: nat): (r: nat)
    ensures extent > 0 ==> InWindow(r, extent, to)
    ensures InWindow(offset, extent, to) ==> r == offset
    ensures !InWindow(offset, extent, to) ==> r != offset
    ensures to < offset ==> r == to
    ensures to >= offset + extent ==> r + extent == to + 1
  {
    if to < offset then to
    else if to >= offset + extent then to - extent + 1
    else offset
  }

  /** Horizontal scroll towards column `to`; marks the view stale when the
      window moves and never clears the mark. */
  function ScrollHorizontal(v: View, to: nat): (r: View)
    ensures r == v.(offset := r.offset, needRedraw := r.needRedraw)
    ensures r.offset.row == v.offset.row
    ensures v.size.width > 0 ==> InWindow(r.offset.col, v.size.width, to)
    ensures InWindow(v.offset.col, v.size.width, to) ==> r == v
    ensures r.needRedraw == (v.needRedraw || r.offset != v.offset)
  {
    var outOfBound := !InWindow(v.offset.col, v.size.width, to);
    v.(offset := v.offset.(col := ScrollAxis(v.offset.col, v.size.width, to)),
       needRedraw := v.needRedraw || outOfBound)
  }

  /** Vertical scroll towards row `to`, with the same rules. */
  function ScrollVertical(v: View, to: nat): (r: View)
    ensures r == v.(offset := r.offset, needRedraw := r.needRedraw)
    ensures r.offset.col == v.offset.col
    ensures v.size.height > 0 ==> InWindow(r.offset.row, v.size.height, to)
    ensures InWindow(v.offset.row, v.size.height, to) ==> r == v
    ensures r.needRedraw == (v.needRedraw || r.offset != v.offset)
  {
    var outOfBound := !InWindow(v.offset.row, v.size.height, to);
    v.(offset := v.offset.(row := ScrollAxis(v.offset.row, v.size.height, to)),
       needRedraw := v.needRedraw || outOfBound)
  }

  /** Scrolls both axes, independently, towards the cursor. */
  function ScrollScreen(v: View): (r: View)
    ensures r == v.(offset := r.offset, needRedraw := r.needRedraw)
    ensures LocToPos(r) == LocToPos(v)
    ensures v.size.width > 0 ==> InWindow(r.offset.col, v.size.width, LocToPos(v).col)
    ensures v.size.height > 0 ==> InWindow(r.offset.row, v.size.height, LocToPos(v).row)
    ensures r.offset == Position(ScrollAxis(v.offset.col, v.size.width, LocToPos(v).col),
                                 ScrollAxis(v.offset.row, v.size.height, LocToPos(v).row))
    ensures r.needRedraw == (v.needRedraw || r.offset != v.offset)
  {
    var pos := LocToPos(v);
    ScrollVertical(ScrollHorizontal(v, pos.col), pos.row)
  }

  /** Applies one movement and scrolls. The document and size stay, a valid
      location stays valid, and with a non-empty viewport the caret ends up
      on screen. A movement whose target is already on screen neither moves
      the window nor marks the view. */
  function MoveLocation(v: View, d: Direction): (r: View)
    requires d == PageUp || d == PageDown ==> v.size.height >= 1
    ensures r.buffer == v.buffer && r.size == v.size
    ensures r.location == Step(v.buffer, v.location, d, v.size.height)
    ensures r == ScrollScreen(v.(location := Step(v.buffer, v.location, d, v.size.height)))
    ensures var target := LocToPos(r);
            (InWindow(v.offset.col, v.size.width, target.col) && InWindow(v.offset.row, v.size.height, target.row))
              ==> r.offset == v.offset && r.needRedraw == v.needRedraw
    ensures ValidLocation(v.buffer, v.location) ==> ValidLocation(r.buffer, r.location)
    ensures v.size.width > 0 && v.size.height > 0 ==>
      r.offset.col <= LocToPos(r).col && r.offset.row <= LocToPos(r).row
    ensures v.size.width > 0 && v.size.height > 0 ==>
      CaretPosition(r).col < r.size.width && CaretPosition(r).row < r.size.height
    ensures r.needRedraw == (v.needRedraw || r.offset != v.offset)
  {
    ScrollScreen(v.(location := Step(v.buffer, v.location, d, v.size.height)))
  }

  /** On a viewport with no columns and the window at column 0, any
      movement scrolls the window one cell past the cursor's column, so the
      caret cell relies on the saturating subtraction. */
  lemma ZeroWidthScrollsPastCursor(v: View, d: Direction)
    requires v.size.width == 0 && v.offset.col == 0
    requires d == PageUp || d == PageDown ==> v.size.height >= 1
    ensures var r := MoveLocation(v, d);
            r.offset.col == LocToPos(r).col + 1 && CaretPosition(r).col == 0
  {
  }

  // ---------------------------------------------------------------------
  // Commands

  function Resize(v: View, size: Size): (r: View)
    ensures r == v.(size := size, needRedraw := true)
  {
    v.(size := size, needRedraw := true)
  }

  /** Inserts a character at the cursor through `edit`, moves one grapheme
      right in the edited buffer and marks the view stale. No scrolling
      happens here. */
  function Insert(v: View, c: char, edit: Edit): (r: View)
    ensures r.buffer == edit(v.buffer, v.location, c)
    ensures r.location == MoveRight(r.buffer, v.location)
    ensures ValidLocation(r.buffer, r.location)
    ensures r.size == v.size && r.offset == v.offset
    ensures r.needRedraw
  {
    var b := edit(v.buffer, v.location, c);
    v.(buffer := b, location := MoveRight(b, v.location), needRedraw := true)
  }

  /** A command needs a non-empty viewport only when it pages. */
  predicate Handles(v: View, cmd: Command) {
    cmd.Move? && (cmd.direction == PageUp || cmd.direction == PageDown) ==> v.size.height >= 1
  }

  /** Dispatches one command. Quit changes nothing; only Insert edits the
      buffer; only Resize changes the size; no command clears the stale
      mark; a valid location stays valid. */
  function CommandHandler(v: View, cmd: Command, edit: Edit): (r: View)
    requires Handles(v, cmd)
    ensures cmd == Quit ==> r == v
    ensures cmd.Resize? ==> r == v.(size := cmd.size, needRedraw := true)
    ensures cmd.Insert? ==> r.needRedraw && r.buffer == edit(v.buffer, v.location, cmd.c)
    ensures cmd.Insert? ==> r == Insert(v, cmd.c, edit)
    ensures !cmd.Insert? ==> r.buffer == v.buffer
    ensures !cmd.Resize? ==> r.size == v.size
    ensures v.needRedraw ==> r.needRedraw
    ensures cmd.Move? ==> r == MoveLocation(v, cmd.direction)
    ensures cmd.Move? ==> r.location == Step(v.buffer, v.location, cmd.direction, v.size.height)
    ensures cmd.Move? && v.size.width > 0 && v.size.height > 0 ==>
      CaretPosition(r).col < r.size.width && CaretPosition(r).row < r.size.height
    ensures ValidLocation(v.buffer, v.location) || cmd.Insert? ==> ValidLocation(r.buffer, r.location)
  {
    match cmd
    case Quit => v
    case Move(d) => MoveLocation(v, d)
    case Insert(c) => Insert(v, c, edit)
    case Resize(size) => Resize(v, size)
  }

  // ---------------------------------------------------------------------
  // Rendering

  function Spaces(n: nat): (s: string)
    ensures |s| == n && forall i :: 0 <= i < n ==> s[i] == ' '
  {
    seq(n, _ => ' ')
  }

  function Truncate(s: string, n: nat): (r: string)
    ensures |r| <= n && r <= s
    ensures |s| <= n ==> r == s
  {
    if |s| <= n then s else s[..n]
  }

  /** The banner line for an empty buffer, for a screen `width` cells wide:
      a single space for no width, a bare tilde when the message does not
      fit, and otherwise a tilde and the whole message centred in the
      remaining cells, never wider than the screen. */
  function WelcomeMessage(width: nat, msg: string): (r: string)
    ensures width == 0 ==> r == " "
    ensures 0 < width <= |msg| ==> r == "~"
    ensures width > |msg| ==> r == "~" + Spaces((width - |msg|) / 2) + msg
    ensures width > 0 ==> 1 <= |r| <= width
    ensures width > |msg| ==>
      var before := (width - |msg|) / 2;
      var after := width - |r|;
      before == after || before == after + 1
  {
    if width == 0 then " "
    else if width <= |msg| then "~"
    else Truncate("~" + Spaces((width - |msg|) / 2) + msg, width)
  }

  /** Text of screen row `row`. */
  function RowText(v: View, row: nat, msg: string): string {
    match Get(v.buffer, v.offset.row + row)
    case Some(line) => GetGraphemes(line, v.offset.col, v.offset.col + v.size.width)
    case None =>
      if row == (v.size.height / 3) * 2 && IsEmpty(v.buffer) then WelcomeMessage(v.size.width, msg)
      else "~"
  }

  /** Result of a render: the view afterwards and, when anything was drawn,
      the text of every screen row from top to bottom. */
  datatype RenderOutcome = RenderOutcome(view: View, frame: Option<seq<string>>)

  /** Draws the screen when it is stale and the viewport is non-empty.
      Row `r` shows the buffer line `offset.row + r` cut to the columns
      `[offset.col, offset.col + width)`, or past the end of the buffer the
      banner on row `(height / 3) * 2` of an empty buffer and `~` elsewhere.
      Drawing clears the stale mark; a stale view with an empty viewport
      stays stale. */
  function Render(v: View, msg: string): (r: RenderOutcome)
    ensures !v.needRedraw ==> r == RenderOutcome(v, None)
    ensures v.needRedraw && (v.size.width == 0 || v.size.height == 0) ==> r == RenderOutcome(v, None)
    ensures v.needRedraw && v.size.width > 0 && v.size.height > 0 ==>
      r.view == v.(needRedraw := false) && r.frame.Some? && |r.frame.value| == v.size.height
    ensures r.frame.Some? ==> forall row :: 0 <= row < |r.frame.value| ==>
      var index := v.offset.row + row;
      && (index < TotalLines(v.buffer) ==>
            r.frame.value[row]
              == GetGraphemes(v.buffer.lines[index], v.offset.col, v.offset.col + v.size.width))
      && (index >= TotalLines(v.buffer) && row == (v.size.height / 3) * 2 && IsEmpty(v.buffer) ==>
            r.frame.value[row] == WelcomeMessage(v.size.width, msg))
      && (index >= TotalLines(v.buffer) && (row != (v.size.height / 3) * 2 || !IsEmpty(v.buffer)) ==>
            r.frame.value[row] == "~")
  {
    if !v.needRedraw then RenderOutcome(v, None)
    else if v.size.width == 0 || v.size.height == 0 then RenderOutcome(v, None)
    else
      var rows := seq(v.size.height, row requires 0 <= row < v.size.height => RowText(v, row, msg));
      RenderOutcome(v.(needRedraw := false), Some(rows))
  }

  /** A second render with nothing in between draws nothing. */
  lemma RenderIdempotent(v: View, msg: string)
    ensures Render(Render(v, msg).view, msg).frame == None
    ensures Render(Render(v, msg).view, msg).view == Render(v, msg).view
  {
  }

  /** On an empty buffer, the screen is all tildes but for the banner on row
      `(height / 3) * 2`. */
  lemma EmptyBufferScreen(v: View, msg: string)
    requires IsEmpty(v.buffer) && v.needRedraw && v.size.width > 0 && v.size.height > 0
    ensures var frame := Render(v, msg).frame.value;
            forall row :: 0 <= row < |frame| ==>
              frame[row] == if row == (v.size.height / 3) * 2 then WelcomeMessage(v.size.width, msg) else "~"
  {
  }

  /** Every drawn row fits the screen: a buffer row fills exactly the cells
      of the window that its line covers, and the other rows are at most
      `width` characters of one cell each. */
  lemma RowsFitScreen(v: View, msg: string, row: nat)
    requires v.size.width > 0
    ensures var index := v.offset.row + row;
            && (index < TotalLines(v.buffer) ==>
                  var pieces := GraphemePieces(v.buffer.lines[index], v.offset.col, v.offset.col + v.size.width);
                  && RowText(v, row, msg) == Text(pieces)
                  && SumColumns(pieces)
                       == Visible(v.offset.col, v.offset.col + v.size.width, TotalWidth(v.buffer.lines[index]))
                  && SumColumns(pieces) <= v.size.width)
            && (index >= TotalLines(v.buffer) ==> 1 <= |RowText(v, row, msg)| <= v.size.width)
  {
    var index := v.offset.row + row;
    if index < TotalLines(v.buffer) {
      var line := v.buffer.lines[index];
      assert Get(v.buffer, index) == Some(line);
      RenderedColumns(line, v.offset.col, v.offset.col + v.size.width);
    } else {
      assert Get(v.buffer, index) == None;
      var banner := WelcomeMessage(v.size.width, msg);
      assert 1 <= |banner| <= v.size.width;
    }
  }

  /** The view after `k` presses of the same movement key. */
  function Repeat(v: View, d: Direction, k: nat): View
    requires d != PageUp && d != PageDown
  {
    if k == 0 then v else MoveLocation(Repeat(v, d, k - 1), d)
  }

  predicate AllHalfWidth(line: Line) {
    forall i :: 0 <= i < Len(line) ==> line.fragments[i].width == Half
  }

  lemma {:induction false} HalfWidthColumns(line: Line, n: nat)
    requires AllHalfWidth(line)
    requires n <= Len(line)
    ensures PrefixWidth(line.fragments, n) == n
  {
    if n > 0 {
      HalfWidthColumns(line, n - 1);
    }
  }

  /** Window offset after walking `k` cells right from the left edge. */
  function OffsetAfter(k: nat, width: nat): nat {
    if k < width then 0 else k - width + 1
  }

  lemma RightStepOnHalfWidthLine(u: View, li: nat, k: nat)
    requires u.size.width > 0 && u.size.height > 0
    requires li < TotalLines(u.buffer) && AllHalfWidth(u.buffer.lines[li])
    requires k < Len(u.buffer.lines[li])
    requires InWindow(u.offset.row, u.size.height, li)
    requires u.location == Location(k, li) && u.offset.col == OffsetAfter(k, u.size.width)
    ensures var r := MoveLocation(u, Right);
            && r.buffer == u.buffer && r.size == u.size
            && r.location == Location(k + 1, li)
            && r.offset == Position(OffsetAfter(k + 1, u.size.width), u.offset.row)
            && r.needRedraw == (u.needRedraw || k + 1 >= u.size.width)
  {
    var moved := u.(location := Location(k + 1, li));
    assert Step(u.buffer, u.location, Right, u.size.height) == Location(k + 1, li);
    HalfWidthColumns(u.buffer.lines[li], k + 1);
    assert LocToPos(moved) == Position(k + 1, li);
    var h := ScrollHorizontal(moved, k + 1);
    assert h.offset == Position(OffsetAfter(k + 1, u.size.width), u.offset.row);
    assert ScrollVertical(h, li) == h;
  }

  /** Walking right from the start of a visible line of half-width
      graphemes, with the window at the left edge: after `k` steps (at most
      the line's length) the cursor is on grapheme `k` of that line, the
      window has scrolled just far enough to show column `k` on its last
      cell, the row offset has not moved, and the view is stale exactly when
      it scrolled or already was. */
  lemma {:induction false} RightAcrossHalfWidthLine(v: View, k: nat)
    requires v.size.width > 0 && v.size.height > 0
    requires v.location.lineIndex < TotalLines(v.buffer)
    requires AllHalfWidth(v.buffer.lines[v.location.lineIndex])
    requires k <= Len(v.buffer.lines[v.location.lineIndex])
    requires v.location.graphemeIndex == 0 && v.offset.col == 0
    requires InWindow(v.offset.row, v.size.height, v.location.lineIndex)
    ensures var r := Repeat(v, Right, k);
            && r.buffer == v.buffer && r.size == v.size
            && r.location == Location(k, v.location.lineIndex)
            && r.offset == Position(OffsetAfter(k, v.size.width), v.offset.row)
            && r.needRedraw == (v.needRedraw || k >= v.size.width)
  {
    if k > 0 {
      RightAcrossHalfWidthLine(v, k - 1);
      RightStepOnHalfWidthLine(Repeat(v, Right, k - 1), v.location.lineIndex, k - 1);
    }
  }
}

=== FILE: wrappers.dfy ===
/** Option and Result, the shapes of Rust's `Option<T>` and `Result<T, E>`. */
module Wrappers {

  datatype Option<+T> = None | Some(value: T)

  datatype Result<+T, +E> = Ok(value: T) | Err(error: E)
}
